=== FILE: README.md ===
# Live markdown editor: preview, viewport and theme state machines

This project models the core of a SolidJS live markdown editor in Dafny.
The editor has a Monaco text editor on one side and a rendered HTML preview
on the other, plus a light/dark theme toggle that is saved in a cookie.
Every reactive callback, effect and DOM or cookie write becomes a pure step
on an immutable record, and each `await` becomes an explicit event. The
model has three parts.

- **Preview conversion** (`Remark`, `Preview`, `EditorRoute`). `markHtmlify`
  runs the fixed unified plugin chain to completion and only then reads the
  caller's `isCancelled` flag. Each run of the route's conversion effect
  starts a task with its own flag. When a task settles, its HTML or error is
  committed only if its flag is still clear. Tasks are driven by `Start`,
  `Cancel` and `Finish` events. The route also models the theme-to-Monaco
  scheme and theme-to-stylesheet mappings, the de-duplication of editor
  changes, and the one-shot first-load flag.
- **Editor viewport lifecycle** (`MonacoViewport`). The record holds the
  loading flag, the editor instance, the resize and style-mutation
  observers, the global `MonacoEnvironment` hook, the disposed instances and
  the layout calls. Events are mount (loader success or failure), editor
  mount, resize entries, style mutations and cleanup.
- **Theme state** (`ThemeSignal`, `ThemeToggle`, `ServerEntry`). The record
  holds the `theme` signal, the `data-theme` attribute and the cookie jar,
  plus the toggle component's flag. The server-side cookie-or-light
  fallback is modelled too.

`ThemeConfig` fixes the two theme tokens. `src/theme-config.ts` is not part
of this model, so the real values of `LIGHT_THEME` and `DARK_THEME` are
unknown. The repository's daisyUI configuration enables six themes: the
catppuccin "latte", "mocha", "macchiato" and "frappe", plus "light" and
"dark". The model takes the tokens to be "light" and "dark". Every lemma
about a value that is not a theme token is stated for all values outside
the two tokens and the empty string, never for one spelling.

Some facts about the code that shape the model:

- The plugin chain runs `rehype-format` before `rehype-starry-night`.
- Staleness is tracked with one boolean flag per task; there is no
  sequence counter.
- Conversion errors escape `markHtmlify`; the route catches them and turns
  them into the `error` signal.
- Resize coalescing is done by lodash's `debounce`, not by the component's
  own logic.
- A style mutation calls the resize handler with no entries, so on its own it
  never lays the editor out; under `debounce` that call can also replace a
  pending resize's entries.

## Model

| member | source | states |
|---|---|---|
| ThemeSignal.Initial | src/signals/theme.ts:4-6 | before any theme function runs, the signal holds the light token |
| ThemeSignal.LoadTheme | src/signals/theme.ts:25-27 | reads the "theme" cookie: present exactly when the jar has that key, with its value |
| ThemeSignal.SaveTheme | src/signals/theme.ts:21-23 | writes the "theme" cookie to the token and leaves every other cookie as it was |
| ThemeSignal.SaveThenLoad | src/signals/theme.ts:21-27 | loading after saving `t` yields `t` |
| ThemeSignal.LoadThenSave | src/signals/theme.ts:21-27 | saving the loaded value gives back the same jar |
| ThemeSignal.SetTheme | src/signals/theme.ts:4-6 | the signal's setter: the signal holds the new value, the setter count rises by one, and `data-theme` and the cookies are untouched |
| ThemeSignal.InitTheme | src/signals/theme.ts:8-13 | theme is dark exactly when the stored value is the dark token; a missing or any other value gives light; `data-theme` equals the signal; cookies unchanged |
| ThemeSignal.UpdateTheme | src/signals/theme.ts:14-19 | signal and `data-theme` both become `t`; cookie unchanged; the setter is skipped exactly when the signal already equals `t` |
| ThemeSignal.UpdateThemeIdempotent | src/signals/theme.ts:14-19 | a second update with the same token changes nothing |
| ThemeSignal.ThemeFunctionsMirror | src/signals/theme.ts:8-19 | after `initTheme` or `updateTheme`, `data-theme` mirrors the signal |
| ThemeToggle.Create | src/components/ThemeToggle.tsx:19 | the toggle flag starts off |
| ThemeToggle.StoredOrLight | src/components/ThemeToggle.tsx:22 | a missing or empty cookie falls back to light; any other value, theme token or not, is kept |
| ThemeToggle.OnMount | src/components/ThemeToggle.tsx:21-25 | flag is on exactly when the stored value is dark; the stored value (with fallback) reaches the signal and `data-theme`; cookies unchanged |
| ThemeToggle.ToggleTheme | src/components/ThemeToggle.tsx:31-41 | flag is negated; signal, cookie and `data-theme` all hold the new flag's token; the signal's setter runs exactly once; other cookies untouched |
| ThemeToggle.ToggleIsConsistent | src/components/ThemeToggle.tsx:33-40 | after a toggle, the flag is on exactly when the theme is dark |
| ThemeToggle.MountIsConsistent | src/components/ThemeToggle.tsx:21-25 | after mounting, the flag is on exactly when the theme is dark |
| ThemeToggle.ToggleTwiceRestores | src/components/ThemeToggle.tsx:31-41 | from a synchronised state, two toggles restore the flag, theme and `data-theme`, and the cookie holds that same token |
| ThemeToggle.ForeignTokenNotRestored | src/components/ThemeToggle.tsx:22-24 | every stored value other than the two tokens and the empty string is shown as-is after mount, but two toggles turn it into light |
| ThemeToggle.RunCookieMatchesTheme | src/components/ThemeToggle.tsx:21-41 | after any non-empty sequence of mounts and toggles, the cookie holds the dark token exactly when the signal does |
| ThemeToggle.RunStaysConsistent | src/components/ThemeToggle.tsx:21-41 | after any non-empty sequence of mounts and toggles, flag agrees with the theme and `data-theme` mirrors it |
| ServerEntry.LoadTheme | src/entry-server.tsx:25-32 | a truthy cookie is returned unchanged; a missing or empty one gives light; the result is never empty |
| ServerEntry.RenderedDataTheme | src/entry-server.tsx:9 | the server-rendered `data-theme` is the cookie if non-empty, light if absent or empty |
| ServerEntry.ServerMatchesToggleMount | src/entry-server.tsx:25-32 | the server-rendered `data-theme` equals the value the toggle's `onMount` applies on the client, for every cookie jar |
| ServerEntry.ServerAndClientDiffer | src/entry-server.tsx:25-32 | server and client `initTheme` (which no modelled file calls) agree for the two tokens and a missing cookie, but disagree for any other non-empty value, which the server does not normalise |
| Remark.ProcessorShape | src/utils/remark.ts:13-23 | the constant `Processor` (the ten `.use` calls, in order) starts with parsing, ends with stringifying, and uses no plugin twice |
| Remark.ProcessorOrder | src/utils/remark.ts:13-23 | in `Processor`, remark-rehype keeps raw HTML and always does so; raw comes before sanitize; sanitize comes before format, highlighting and stringify |
| Remark.MarkHtmlify | src/utils/remark.ts:25-39 | returns `undefined` exactly when processing succeeded and the flag is set afterwards; otherwise it returns the output string; a processor failure propagates |
| Remark.CancellationIsAdvisory | src/utils/remark.ts:30-36 | the flag does not change a processor failure, and a cancelled call never yields output |
| Preview.Empty | src/routes/editor.tsx:17-18 | `html` starts empty and `error` null, with no task |
| Preview.StartTask | src/routes/editor.tsx:58-61 | a run of the effect appends one fresh, uncancelled task for the text and leaves the earlier tasks and the preview signals alone |
| Preview.CancelTask | src/routes/editor.tsx:77-79 | running a task's closure sets only that task's flag |
| Preview.FinishTask | src/routes/editor.tsx:61-74 | a successful live task sets `html` and clears `error`; a failed live task sets `error` and keeps `html`; a cancelled task changes neither; a settled or unknown task is ignored |
| Preview.CancelledTaskIsInvisible | src/routes/editor.tsx:64-72 | a cancelled task leaves `html` and `error` unchanged whether it succeeds or fails |
| Preview.StepKeepsOrder | src/routes/editor.tsx:57-80 | a step that starts tasks only after all earlier ones are cancelled keeps at most the newest task live and the commits in order; only the newest task commits |
| Preview.DisciplinedRunCommitsInOrder | src/routes/editor.tsx:57-80 | if every `Start` follows cancelling all earlier tasks, the task ids that commit to `html` are non-decreasing and earlier commits are kept |
| Preview.UndisciplinedRunRegresses | src/routes/editor.tsx:57-80 | without that discipline, an older task that settles later overwrites a newer result |
| EditorRoute.MonacoThemeFor | src/routes/editor.tsx:19-21 | the Monaco scheme is "vs-dark" exactly when the theme is the dark token, "vs" otherwise |
| EditorRoute.HighlightCssFor | src/routes/editor.tsx:24-26 | the stylesheet is the dark URL exactly when the theme is the dark token |
| EditorRoute.Create | src/routes/editor.tsx:15-26 | at creation both theme signals are dark exactly when the cookie is dark, so they agree; value is empty; the first conversion task for "" has started |
| EditorRoute.OnPreInit | src/routes/editor.tsx:28-35 | clears `firstLoad`; when it is already clear, nothing changes |
| EditorRoute.OnPreInitOnce | src/routes/editor.tsx:28-35 | a second call is a no-op |
| EditorRoute.OnMonacoMount | src/routes/editor.tsx:37-42 | the scheme passed to the editor is the new `monacoTheme`; it is "vs-dark" when the cookie is dark and "vs" otherwise, and nothing else on the page changes |
| EditorRoute.ThemeEffect | src/routes/editor.tsx:48-55 | after the theme effect, the scheme and the stylesheet are both dark exactly when the theme is dark |
| EditorRoute.MountsKeepThemesAgree | src/routes/editor.tsx:37-42 | when the cookie and the theme signal agree on dark mode, the editor mount and the page mount keep the Monaco scheme and the stylesheet both dark or both light |
| EditorRoute.CookieMountCanSplitThemes | src/routes/editor.tsx:82-87 | when they disagree, a page mount after a light theme effect leaves the scheme light and the stylesheet dark |
| EditorRoute.OnPageMount | src/routes/editor.tsx:82-87 | the page's mount sets only the stylesheet: the dark URL when the cookie is dark, the light URL otherwise |
| EditorRoute.OnMonacoChange | src/routes/editor.tsx:44-46 | `value` is written exactly when the new text differs, and then with that text |
| EditorRoute.EditAsWritten | src/routes/editor.tsx:44-46 | repeating the current text changes nothing and starts no conversion; new text starts one task |
| EditorRoute.ConversionEffectAsWritten | src/routes/editor.tsx:57-80 | each run starts a new live task and cancels none of the earlier ones |
| EditorRoute.StaleConversionWinsAsWritten | src/routes/editor.tsx:77-79 | as written, typing "a" then "b" can leave the preview showing "a"'s HTML while the editor holds "b" |
| EditorRoute.ConversionEffect | src/routes/editor.tsx:57-80 | corrected: each run marks the previous task cancelled, leaves every older task as it was, and appends a fresh live task for the new text, so at most the newest task is live and commits stay in order |
| EditorRoute.Edit | src/routes/editor.tsx:44-46 | corrected: same de-duplication, but a changed value runs the corrected effect |
| EditorRoute.CreateIsOrdered | src/routes/editor.tsx:15-80 | a freshly created page satisfies the ordering invariant |
| EditorRoute.CorrectedRunCommitsInOrder | src/routes/editor.tsx:57-80 | corrected: every page trace commits conversions in start order and loses no earlier commit |
| MonacoViewport.Create | src/components/Monaco.tsx:20-22 | starts loading, with no editor and no observers |
| MonacoViewport.InitMonaco | src/components/Monaco.tsx:25-67 | loading ends on both success and failure; only success installs the environment hook; a failure is returned for rethrowing |
| MonacoViewport.OnMount | src/components/Monaco.tsx:92-115 | after a failed init the error escapes and no observer is created; after success the resize observer is created, observing only if the container exists, and the mutation observer is created and connected when the container exists |
| MonacoViewport.HandleEditorMount | src/components/Monaco.tsx:69-75 | stores the editor instance |
| MonacoViewport.LayoutFor | src/components/Monaco.tsx:79-88 | lays out exactly when an editor exists, entries are non-empty and the first entry's width and height are both positive, and then with exactly that size; later entries are ignored |
| MonacoViewport.HandleResize | src/components/Monaco.tsx:79-88 | appends the chosen layout, or changes nothing |
| MonacoViewport.OnMutations | src/components/Monaco.tsx:100-108 | style mutations call the handler with no entries, so they never lay out |
| MonacoViewport.Cleanup | src/components/Monaco.tsx:117-132 | both observers end disconnected; the editor is disposed once and forgotten; the environment hook is removed; nothing is created |
| MonacoViewport.CleanupIdempotent | src/components/Monaco.tsx:117-132 | a second cleanup disposes nothing and changes nothing |
| MonacoViewport.ResizeAfterCleanupIsInert | src/components/Monaco.tsx:80 | a resize after cleanup performs no layout |
| MonacoViewport.CallbacksAfterCleanupAreInert | src/components/Monaco.tsx:79-132 | any sequence of late resize and mutation callbacks after cleanup leaves the released state as it is |
| MonacoViewport.RunLayoutsPositive | src/components/Monaco.tsx:85-87 | no event sequence lays the editor out with a zero or negative dimension |
| MonacoViewport.LoadingEndsOnce | src/components/Monaco.tsx:60-64 | once a mount has run, with either outcome, the loading flag stays false |
| MonacoViewport.MountThenUnmountReleasesAll | src/components/Monaco.tsx:92-132 | mount, editor mount, then cleanup leaves no connected observer, no environment hook, and the editor disposed |
| MonacoViewport.CleanupBeforeInitLeaks | src/components/Monaco.tsx:92-95 | if cleanup runs before `initMonaco` resolves, the observers are connected and the hook is installed after the release |

## Left out

- JSX rendering, `Show`, `Suspense` and `ErrorBoundary` are not modelled. Routing, the navigation bar and the Tailwind configuration are UI and configuration.
- The unified, remark and rehype plugins are opaque here. `processor.process` is represented only by its outcome, so sanitisation, KaTeX output and highlighting are not verified.
- lodash `debounce` is not modelled: its timing, its coalescing and its choice of arguments. Only the inner resize handler is.
- The Monaco loader configuration, the CDN paths and the worker data-URL are not modelled. The environment hook is a boolean.
- Cookies (js-cookie, vinxi `getCookie`), `document.documentElement` and the loading-spinner DOM query in `onPreInit` are left out. The cookie jar and `data-theme` are fields; the spinner removal is not modelled.
- Console logging is left out.
- SolidJS scheduling is not modelled: effect order, batching, and the equality check that makes a same-value `set` silent. `ThemeSignal.ThemeState.themeSets` counts setter calls instead.
- Preview.FinishTask: settling is one atomic step. The flag read inside `markHtmlify` and the one read in the route's continuation are taken to be the same value, so no `Cancel` is modelled between those two reads.
- MonacoViewport.OnMount: the continuation after `await initMonaco()` runs in the same step as the init's success. Cleanup between the two is therefore not distinguished from cleanup before the init.
- MonacoViewport.Cleanup: the model claims no leak-freedom when cleanup runs before the init resolves. `CleanupBeforeInitLeaks` shows the observers then outlive the component.
- MonacoViewport.HandleResize: the `contentRect` width and height are JavaScript doubles and are modelled as `real`. The `> 0` guard decides the same way for every finite value; NaN and infinities are not modelled.
- ThemeSignal.Initial: `dataTheme` starts unset. The `data-theme` the server rendered into the document (`ServerEntry.RenderedDataTheme`) is not carried into the client state.
- EditorRoute.Create: covers the initial signal values and the conversion effect's first run. The theme effect's first run, which SolidJS performs at creation and which overwrites both theme signals from `theme()`, is the page trace's first `ThemeChanged` event.
- EditorRoute.OnMonacoMount: only the theme part is modelled. The editor instance it receives is left out.
- The editor's own `onChange`, `value` and `options` props belong to the third-party widget and are not modelled.

## Findings

| source | as written | input that shows it | evidently intended | confidence | as-written member | corrected member |
|---|---|---|---|---|---|---|
| src/routes/editor.tsx:77-79 | The conversion effect returns its cancel closure. SolidJS's `createEffect` passes that return value to the next run as `prev` and never calls it, so no task is ever cancelled. | Type "a", then "b". The conversion of "b" settles first, then the conversion of "a". The preview shows "a"'s HTML while the editor holds "b". | Register the closure with `onCleanup`, so each re-run first cancels the previous task. Commits then follow start order. | high; not executed | EditorRoute.StaleConversionWinsAsWritten | EditorRoute.CorrectedRunCommitsInOrder |

=== FILE: base.dfy ===
/**
 The small vocabulary shared by every module of the model: an optional value
 (JavaScript's `undefined`/`null` next to a present value) and the error a
 rejected promise or a thrown exception carries.
 */
module Base {

  /** A value that may be absent: `None` stands for `undefined` or `null`. */
  datatype Option<+T> = None | Some(value: T)

  /** An exception or a promise rejection; only its message is observable. */
  datatype Error = Error(message: string)
}

=== FILE: editor_route.dfy ===
/**
 The `Editor` route of `src/routes/editor.tsx`: the page's signals, the
 callbacks it hands to the Monaco component, the theme effect and the
 markdown-conversion effect. Cookies and the theme signal are passed in as
 values; the conversion state is the `Preview` machine.
 */
module EditorRoute {
  import opened Base
  import opened ThemeConfig
  import opened Remark
  import Preview

  /** Monaco's two colour schemes. */
  const MonacoLight: string := "vs"
  const MonacoDark: string := "vs-dark"

  /** The starry-night stylesheets for code highlighting. */
  const HighlightCssLight: string := "https://cdn.jsdelivr.net/npm/@wooorm/starry-night@3.5.0/style/light.min.css"
  const HighlightCssDark: string := "https://cdn.jsdelivr.net/npm/@wooorm/starry-night@3.5.0/style/dark.min.css"

  /** The Monaco scheme for a theme value: dark only for the exact dark token. */
  function MonacoThemeFor(theme: Option<string>): (r: string)
    ensures r == MonacoDark <==> theme == Some(DarkTheme)
    ensures r == MonacoLight <==> theme != Some(DarkTheme)
  {
    if theme == Some(DarkTheme) then MonacoDark else MonacoLight
  }

  /** The highlight stylesheet for a theme value: dark only for the exact dark token. */
  function HighlightCssFor(theme: Option<string>): (r: string)
    ensures r == HighlightCssDark <==> theme == Some(DarkTheme)
    ensures r == HighlightCssLight <==> theme != Some(DarkTheme)
  {
    if theme == Some(DarkTheme) then HighlightCssDark else HighlightCssLight
  }

  /**
   The page's signals: the editor text, the conversion state (which holds
   `html` and `error`), the Monaco scheme, the highlight stylesheet and the
   first-load flag.
   */
  datatype Page = Page(
    value: string,
    preview: Preview.Preview,
    monacoTheme: string,
    highlightCss: string,
    firstLoad: bool)

  /** The Monaco scheme and the stylesheet are both dark or both light. */
  predicate ThemesAgree(p: Page)
  {
    (p.monacoTheme == MonacoDark <==> p.highlightCss == HighlightCssDark) &&
    p.monacoTheme in {MonacoLight, MonacoDark} && p.highlightCss in {HighlightCssLight, HighlightCssDark}
  }

  /**
   The markdown-conversion effect as written: each run starts a task for the
   current text. The closure it returns becomes the next run's `prev`
   argument and is never invoked, so no earlier task is cancelled.
   */
  function ConversionEffectAsWritten(p: Preview.Preview, text: string): (r: Preview.Preview)
    ensures |r.tasks| == |p.tasks| + 1 && r.tasks[|p.tasks|] == Preview.Task(text, false, false)
    ensures forall i :: 0 <= i < |p.tasks| ==> r.tasks[i] == p.tasks[i]
  {
    Preview.StartTask(p, text)
  }

  /**
   The conversion effect with the closure registered through `onCleanup`:
   the previous run's closure cancels the previous task before the new task
   starts.
   */
  function ConversionEffect(p: Preview.Preview, text: string): (r: Preview.Preview)
    ensures |r.tasks| == |p.tasks| + 1 && r.tasks[|p.tasks|] == Preview.Task(text, false, false)
    ensures |p.tasks| > 0 ==> r.tasks[|p.tasks| - 1] == p.tasks[|p.tasks| - 1].(cancelled := true)
    ensures forall i :: 0 <= i < |p.tasks| - 1 ==> r.tasks[i] == p.tasks[i]
    ensures Preview.OnlyNewestLive(p) ==> Preview.OnlyNewestLive(r)
    ensures Preview.CommitsInOrder(p) ==> Preview.CommitsInOrder(r)
    ensures r.html == p.html && r.error == p.error && r.commits == p.commits
  {
    var cancelled := if |p.tasks| > 0 then Preview.CancelTask(p, |p.tasks| - 1) else p;
    Preview.StartTask(cancelled, text)
  }

  /**
   The page as created with `cookie` as the client's stored theme: both
   theme signals are chosen from the cookie, the first-load flag is set and
   the conversion effect has run once for the empty text.
   */
  function Create(cookie: Option<string>): (p: Page)
    ensures p.value == "" && p.firstLoad
    ensures p.monacoTheme == MonacoDark <==> cookie == Some(DarkTheme)
    ensures p.highlightCss == HighlightCssDark <==> cookie == Some(DarkTheme)
    ensures ThemesAgree(p)
    ensures p.preview.tasks == [Preview.Task("", false, false)]
    ensures p.preview.html == "" && p.preview.error == None && p.preview.commits == []
  {
    Page("", ConversionEffect(Preview.Empty(), ""), MonacoThemeFor(cookie), HighlightCssFor(cookie), true)
  }

  /** `onPreInit`: clears the first-load flag once; afterwards it changes nothing. */
  function OnPreInit(p: Page): (r: Page)
    ensures !r.firstLoad
    ensures !p.firstLoad ==> r == p
    ensures r.value == p.value && r.preview == p.preview
    ensures r.monacoTheme == p.monacoTheme && r.highlightCss == p.highlightCss
  {
    if p.firstLoad then p.(firstLoad := false) else p
  }

  /** A second `onPreInit` is a no-op. */
  lemma OnPreInitOnce(p: Page)
    ensures OnPreInit(OnPreInit(p)) == OnPreInit(p)
  {
  }

  /**
   `onMonacoMount`: re-reads the cookie, sets the Monaco scheme from it and
   returns the scheme passed to the editor's `updateOptions`.
   */
  function OnMonacoMount(p: Page, cookie: Option<string>): (r: (Page, string))
    ensures r.1 == r.0.monacoTheme
    ensures r.1 == MonacoDark <==> cookie == Some(DarkTheme)
    ensures r.1 == MonacoLight <==> cookie != Some(DarkTheme)
    ensures r.0 == p.(monacoTheme := r.1)
  {
    var scheme := MonacoThemeFor(cookie);
    (p.(monacoTheme := scheme), scheme)
  }

  /** The theme effect: both theme signals follow the `theme` signal. */
  function ThemeEffect(p: Page, theme: string): (r: Page)
    ensures r.monacoTheme == MonacoDark <==> theme == DarkTheme
    ensures r.highlightCss == HighlightCssDark <==> theme == DarkTheme
    ensures ThemesAgree(r)
    ensures r.value == p.value && r.preview == p.preview && r.firstLoad == p.firstLoad
  {
    p.(monacoTheme := MonacoThemeFor(Some(theme)), highlightCss := HighlightCssFor(Some(theme)))
  }

  /** The page's `onMount`: the stylesheet follows the cookie. */
  function OnPageMount(p: Page, cookie: Option<string>): (r: Page)
    ensures r.highlightCss == HighlightCssDark <==> cookie == Some(DarkTheme)
    ensures r.highlightCss == HighlightCssLight <==> cookie != Some(DarkTheme)
    ensures r == p.(highlightCss := r.highlightCss)
  {
    p.(highlightCss := HighlightCssFor(cookie))
  }

  /**
   The two cookie-driven mounts keep the Monaco scheme and the stylesheet in
   step, provided the cookie and the `theme` signal agree on dark mode.
   */
  lemma MountsKeepThemesAgree(p: Page, cookie: Option<string>, theme: string)
    requires ThemesAgree(p)
    requires p.monacoTheme == MonacoDark <==> theme == DarkTheme
    requires cookie == Some(DarkTheme) <==> theme == DarkTheme
    ensures ThemesAgree(OnPageMount(p, cookie))
    ensures ThemesAgree(OnMonacoMount(p, cookie).0)
  {
  }

  /**
   Without that agreement the mounts can split the two: after a light theme
   effect, a page mount that reads a dark cookie leaves the Monaco scheme
   light and the stylesheet dark.
   */
  lemma CookieMountCanSplitThemes()
    ensures !ThemesAgree(Step(Step(Create(None), ThemeChanged(LightTheme)), PageMounted(Some(DarkTheme))))
  {
  }

  /**
   `onMonacoChange`: the text to store in `value`, or `None` when the new
   text equals the current one and the signal is left alone.
   */
  function OnMonacoChange(value: string, newValue: string): (r: Option<string>)
    ensures r.Some? <==> newValue != value
    ensures r.Some? ==> r.value == newValue
  {
    if newValue != value then Some(newValue) else None
  }

  /** An edit as written: a changed value re-runs the conversion effect. */
  function EditAsWritten(p: Page, newValue: string): (r: Page)
    ensures newValue == p.value ==> r == p
    ensures newValue != p.value ==>
              r.value == newValue && r.preview == ConversionEffectAsWritten(p.preview, newValue)
  {
    match OnMonacoChange(p.value, newValue)
    case None => p
    case Some(v) => p.(value := v, preview := ConversionEffectAsWritten(p.preview, v))
  }

  /** An edit with the cancel closure run on re-execution. */
  function Edit(p: Page, newValue: string): (r: Page)
    ensures newValue == p.value ==> r == p
    ensures newValue != p.value ==>
              r.value == newValue && r.preview == ConversionEffect(p.preview, newValue)
  {
    match OnMonacoChange(p.value, newValue)
    case None => p
    case Some(v) => p.(value := v, preview := ConversionEffect(p.preview, v))
  }

  /** What happens to the page after it is created. */
  datatype PageEvent =
    | PreInit
    | MonacoMounted(cookie: Option<string>)
    | PageMounted(cookie: Option<string>)
    | ThemeChanged(theme: string)
    | Edited(text: string)
    | Converted(id: nat, processed: Processed)

  /** One page event, with the conversion effect as written. */
  function StepAsWritten(p: Page, e: PageEvent): Page
  {
    match e
    case Edited(text) => EditAsWritten(p, text)
    case _ => StepCommon(p, e)
  }

  /** One page event, with the corrected conversion effect. */
  function Step(p: Page, e: PageEvent): Page
  {
    match e
    case Edited(text) => Edit(p, text)
    case _ => StepCommon(p, e)
  }

  /** The events on which both versions agree. */
  function StepCommon(p: Page, e: PageEvent): Page
    requires !e.Edited?
  {
    match e
    case PreInit => OnPreInit(p)
    case MonacoMounted(cookie) => OnMonacoMount(p, cookie).0
    case PageMounted(cookie) => OnPageMount(p, cookie)
    case ThemeChanged(theme) => ThemeEffect(p, theme)
    case Converted(id, processed) => p.(preview := Preview.FinishTask(p.preview, id, processed))
  }

  function RunAsWritten(p: Page, events: seq<PageEvent>): Page
    decreases |events|
  {
    if events == [] then p else RunAsWritten(StepAsWritten(p, events[0]), events[1..])
  }

  function Run(p: Page, events: seq<PageEvent>): Page
    decreases |events|
  {
    if events == [] then p else Run(Step(p, events[0]), events[1..])
  }

  /**
   As written, a stale conversion becomes visible: after typing "a" then
   "b", if the conversion of "b" settles before that of "a", the preview
   ends up showing the HTML of "a" while the editor holds "b".
   */
  lemma StaleConversionWinsAsWritten()
    ensures var p := RunAsWritten(Create(None),
                        [Edited("a"), Edited("b"), Converted(2, Processed("<p>b</p>")), Converted(1, Processed("<p>a</p>"))]);
            p.value == "b" && p.preview.html == "<p>a</p>" && p.preview.commits == [2, 1]
  {
  }

  /** The invariant the corrected page keeps: at most the newest task live, commits in order. */
  predicate Ordered(p: Page)
  {
    Preview.OnlyNewestLive(p.preview) && Preview.CommitsInOrder(p.preview)
  }

  lemma CreateIsOrdered(cookie: Option<string>)
    ensures Ordered(Create(cookie))
  {
  }

  /**
   With the corrected effect, every page trace commits conversions in start
   order: a stale result never replaces a newer one, and no earlier commit is
   lost from the history.
   */
  lemma {:induction false} CorrectedRunCommitsInOrder(p: Page, events: seq<PageEvent>)
    requires Ordered(p)
    ensures Ordered(Run(p, events))
    ensures p.preview.commits <= Run(p, events).preview.commits
    decreases |events|
  {
    if events != [] {
      var e := events[0];
      var p' := Step(p, e);
      match e {
        case Converted(id, processed) =>
          Preview.StepKeepsOrder(p.preview, Preview.Finish(id, processed));
        case _ =>
      }
      assert Ordered(p') && p.preview.commits <= p'.preview.commits;
      CorrectedRunCommitsInOrder(p', events[1..]);
    }
  }
}

=== FILE: monaco_viewport.dfy ===
/**
 The viewport lifecycle of the Monaco wrapper in `src/components/Monaco.tsx`:
 loading state, the editor instance, the two observers, the process-wide
 `MonacoEnvironment` hook, and the layout calls made on the editor. The
 loader, the observers' scheduling and the debounce wrapper are replaced by
 explicit events; the resize handler is the debounced function's inner body.
 */
module MonacoViewport {
  import opened Base

  /** An editor instance, known only by identity. */
  type EditorHandle = nat

  /** A content-box size as reported by a resize entry. */
  datatype Size = Size(width: real, height: real)

  /** An observer variable: never assigned, or assigned and (dis)connected. */
  datatype Observer = Unset | Created(connected: bool)

  predicate Connected(o: Observer)
  {
    o.Created? && o.connected
  }

  /**
   The component's state.
   - `isLoading`: the loading signal;
   - `editor`: `editorInstance`;
   - `resizeObs`, `mutationObs`: the two observer variables;
   - `envInstalled`: whether `self.MonacoEnvironment` is set;
   - `disposed`: the editor instances disposed so far, in order;
   - `layouts`: the `layout` calls made on the editor, in order.
   */
  datatype Viewport = Viewport(
    isLoading: bool,
    editor: Option<EditorHandle>,
    resizeObs: Observer,
    mutationObs: Observer,
    envInstalled: bool,
    disposed: seq<EditorHandle>,
    layouts: seq<Size>)

  /** The component as created; `envInstalled` is whatever the global hook holds. */
  function Create(envInstalled: bool): (v: Viewport)
    ensures v.isLoading && v.editor == None
    ensures v.resizeObs == Unset && v.mutationObs == Unset
    ensures v.disposed == [] && v.layouts == []
  {
    Viewport(true, None, Unset, Unset, envInstalled, [], [])
  }

  /** How the loader's initialisation ends. */
  datatype LoaderOutcome = LoaderReady | LoaderFailed(error: Error)

  /**
   `initMonaco`: on success the environment hook is installed; on failure
   it is not. Either way loading ends, and a failure is returned to be
   rethrown.
   */
  function InitMonaco(v: Viewport, loader: LoaderOutcome): (r: (Viewport, Option<Error>))
    ensures !r.0.isLoading
    ensures loader.LoaderReady? ==> r.0.envInstalled && r.1 == None
    ensures loader.LoaderFailed? ==> r.0.envInstalled == v.envInstalled && r.1 == Some(loader.error)
    ensures r.0.editor == v.editor && r.0.resizeObs == v.resizeObs && r.0.mutationObs == v.mutationObs
    ensures r.0.disposed == v.disposed && r.0.layouts == v.layouts
  {
    match loader
    case LoaderReady => (v.(envInstalled := true, isLoading := false), None)
    case LoaderFailed(e) => (v.(isLoading := false), Some(e))
  }

  /**
   The `onMount` handler: awaits `initMonaco`; if it rejects, the error
   escapes and no observer is created. Otherwise the resize observer is
   created, and when the container exists it observes it and the style
   mutation observer is created and connected.
   */
  function OnMount(v: Viewport, loader: LoaderOutcome, hasContainer: bool): (r: (Viewport, Option<Error>))
    ensures !r.0.isLoading
    ensures loader.LoaderFailed? ==>
              (r.1 == Some(loader.error) && r.0.resizeObs == v.resizeObs && r.0.mutationObs == v.mutationObs)
    ensures loader.LoaderReady? ==>
              (r.1 == None && r.0.envInstalled && r.0.resizeObs == Created(hasContainer))
    ensures loader.LoaderReady? && hasContainer ==> r.0.mutationObs == Created(true)
    ensures loader.LoaderReady? && !hasContainer ==> r.0.mutationObs == v.mutationObs
    ensures r.0.editor == v.editor && r.0.disposed == v.disposed && r.0.layouts == v.layouts
  {
    var (v', failure) := InitMonaco(v, loader);
    if failure.Some? then (v', failure)
    else
      var v' := v'.(resizeObs := Created(hasContainer));
      if hasContainer then (v'.(mutationObs := Created(true)), None) else (v', None)
  }

  /** `handleEditorMount`: remembers the editor instance. */
  function HandleEditorMount(v: Viewport, editor: EditorHandle): (r: Viewport)
    ensures r.editor == Some(editor)
    ensures r == v.(editor := Some(editor))
  {
    v.(editor := Some(editor))
  }

  /**
   The resize handler's guard: the size to lay the editor out with, if any.
   Nothing happens without an editor or without entries; only the first
   entry counts, and only when both its dimensions are positive.
   */
  function LayoutFor(editor: Option<EditorHandle>, entries: seq<Size>): (r: Option<Size>)
    ensures r.Some? <==> editor.Some? && |entries| > 0 && entries[0].width > 0.0 && entries[0].height > 0.0
    ensures r.Some? ==> r.value == entries[0]
  {
    if editor.None? || |entries| == 0 then None
    else if entries[0].width > 0.0 && entries[0].height > 0.0 then Some(entries[0])
    else None
  }

  /** The resize handler: performs the layout `LayoutFor` selects. */
  function HandleResize(v: Viewport, entries: seq<Size>): (r: Viewport)
    ensures LayoutFor(v.editor, entries).None? ==> r == v
    ensures LayoutFor(v.editor, entries).Some? ==> r == v.(layouts := v.layouts + [entries[0]])
  {
    match LayoutFor(v.editor, entries)
    case None => v
    case Some(size) => v.(layouts := v.layouts + [size])
  }

  /** One record delivered to the mutation observer's callback. */
  datatype Mutation = Mutation(kind: string, attributeName: Option<string>)

  /** The callback reacts only to changes of the `style` attribute. */
  predicate IsStyleChange(m: Mutation)
  {
    m.kind == "attributes" && m.attributeName == Some("style")
  }

  /**
   The mutation observer's callback: for each style change it calls the
   resize handler with no entries, which never lays the editor out.
   */
  function OnMutations(v: Viewport, mutations: seq<Mutation>): (r: Viewport)
    ensures r == v
    decreases |mutations|
  {
    if mutations == [] then v
    else
      var v' := if IsStyleChange(mutations[0]) then HandleResize(v, []) else v;
      OnMutations(v', mutations[1..])
  }

  /**
   `onCleanup`: disconnects each observer that was assigned, disposes and
   forgets the editor if there is one, and removes the environment hook.
   */
  function Cleanup(v: Viewport): (r: Viewport)
    ensures !Connected(r.resizeObs) && !Connected(r.mutationObs)
    ensures r.resizeObs.Created? <==> v.resizeObs.Created?
    ensures r.mutationObs.Created? <==> v.mutationObs.Created?
    ensures r.editor == None && !r.envInstalled
    ensures v.editor.Some? ==> r.disposed == v.disposed + [v.editor.value]
    ensures v.editor.None? ==> r.disposed == v.disposed
    ensures r.isLoading == v.isLoading && r.layouts == v.layouts
  {
    var v := if v.resizeObs.Created? then v.(resizeObs := Created(false)) else v;
    var v := if v.mutationObs.Created? then v.(mutationObs := Created(false)) else v;
    var v := if v.editor.Some? then v.(disposed := v.disposed + [v.editor.value], editor := None) else v;
    v.(envInstalled := false)
  }

  /** A second cleanup disposes nothing and changes nothing. */
  lemma CleanupIdempotent(v: Viewport)
    ensures Cleanup(Cleanup(v)) == Cleanup(v)
    ensures Cleanup(Cleanup(v)).disposed == Cleanup(v).disposed
  {
  }

  /** A resize that arrives after cleanup performs no layout. */
  lemma ResizeAfterCleanupIsInert(v: Viewport, entries: seq<Size>)
    ensures HandleResize(Cleanup(v), entries) == Cleanup(v)
  {
  }

  /** The events the component reacts to. */
  datatype Event =
    | Mounted(loader: LoaderOutcome, hasContainer: bool)
    | EditorMounted(editor: EditorHandle)
    | Resized(entries: seq<Size>)
    | StyleMutated(mutations: seq<Mutation>)
    | CleanedUp

  function Step(v: Viewport, e: Event): Viewport
  {
    match e
    case Mounted(loader, hasContainer) => OnMount(v, loader, hasContainer).0
    case EditorMounted(editor) => HandleEditorMount(v, editor)
    case Resized(entries) => HandleResize(v, entries)
    case StyleMutated(mutations) => OnMutations(v, mutations)
    case CleanedUp => Cleanup(v)
  }

  function Run(v: Viewport, events: seq<Event>): Viewport
    decreases |events|
  {
    if events == [] then v else Run(Step(v, events[0]), events[1..])
  }

  /** Every recorded layout has positive width and height. */
  predicate LayoutsPositive(v: Viewport)
  {
    forall i :: 0 <= i < |v.layouts| ==> v.layouts[i].width > 0.0 && v.layouts[i].height > 0.0
  }

  /** No event sequence ever lays the editor out with a zero or negative dimension. */
  lemma {:induction false} RunLayoutsPositive(v: Viewport, events: seq<Event>)
    requires LayoutsPositive(v)
    ensures LayoutsPositive(Run(v, events))
    decreases |events|
  {
    if events != [] {
      var v' := Step(v, events[0]);
      assert LayoutsPositive(v');
      RunLayoutsPositive(v', events[1..]);
    }
  }

  /** Events that only deliver geometry or mutations. */
  predicate OnlyCallbacks(events: seq<Event>)
  {
    forall i :: 0 <= i < |events| ==> events[i].Resized? || events[i].StyleMutated?
  }

  /**
   After cleanup, any number of late resize and mutation callbacks performs
   no layout and leaves the released state as it is.
   */
  lemma {:induction false} CallbacksAfterCleanupAreInert(v: Viewport, events: seq<Event>)
    requires OnlyCallbacks(events)
    ensures Run(Cleanup(v), events) == Cleanup(v)
    decreases |events|
  {
    if events != [] {
      assert events[0].Resized? || events[0].StyleMutated?;
      assert Step(Cleanup(v), events[0]) == Cleanup(v);
      CallbacksAfterCleanupAreInert(v, events[1..]);
    }
  }

  /**
   Once loading has ended it never starts again, so a mount that ran, with
   either outcome, leaves the placeholder gone for good.
   */
  lemma {:induction false} LoadingEndsOnce(v: Viewport, events: seq<Event>)
    requires !v.isLoading || (|events| > 0 && events[0].Mounted?)
    ensures !Run(v, events).isLoading
    decreases |events|
  {
    if events != [] {
      var v' := Step(v, events[0]);
      assert !v'.isLoading;
      LoadingEndsOnce(v', events[1..]);
    } else {
      assert !v.isLoading;
    }
  }

  /**
   Mounting successfully, receiving the editor and unmounting leaves no
   connected observer, no environment hook and the editor disposed.
   */
  lemma MountThenUnmountReleasesAll(env: bool, hasContainer: bool, editor: EditorHandle)
    ensures var v := Run(Create(env), [Mounted(LoaderReady, hasContainer), EditorMounted(editor), CleanedUp]);
            !Connected(v.resizeObs) && !Connected(v.mutationObs) && !v.envInstalled &&
            v.editor == None && v.disposed == [editor]
  {
    var v0 := Create(env);
    var v1 := Step(v0, Mounted(LoaderReady, hasContainer));
    var v2 := Step(v1, EditorMounted(editor));
    var v3 := Step(v2, CleanedUp);
    assert v2.editor == Some(editor) && v2.disposed == [];
    assert Run(v0, [Mounted(LoaderReady, hasContainer), EditorMounted(editor), CleanedUp]) == Run(v1, [EditorMounted(editor), CleanedUp]);
    assert Run(v1, [EditorMounted(editor), CleanedUp]) == Run(v2, [CleanedUp]);
    assert Run(v2, [CleanedUp]) == Run(v3, []);
  }

  /**
   When the component is cleaned up before `initMonaco` resolves, the rest of
   `onMount` still runs afterwards: the observers are created and connected
   and the environment hook is installed after the release.
   */
  lemma CleanupBeforeInitLeaks(env: bool)
    ensures var v := Run(Create(env), [CleanedUp, Mounted(LoaderReady, true)]);
            Connected(v.resizeObs) && Connected(v.mutationObs) && v.envInstalled
  {
  }
}

=== FILE: preview.dfy ===
/**
 The markdown-conversion effect of `src/routes/editor.tsx` as a state
 machine over explicit events. Each run of the effect starts a conversion
 task with its own `isCancelled` flag; the closure the run hands back sets
 that flag; when the task's `markHtmlify` call settles, the result is
 committed to the `html`/`error` signals only if the flag is still clear.
 Tasks are numbered from 0 in the order they start.
 */
module Preview {
  import opened Base
  import opened Remark

  /** One run of the conversion effect: the text it converts and its flag. */
  datatype Task = Task(source: string, cancelled: bool, settled: bool)

  /**
   The preview signals next to the tasks started so far.
   `commits` lists, in order, the tasks whose output was written to `html`;
   its last element is the originating task of the visible HTML.
   */
  datatype Preview = Preview(
    tasks: seq<Task>,
    html: string,
    error: Option<Error>,
    commits: seq<nat>)

  /** The signals as created: empty HTML, no error, no task yet. */
  function Empty(): (p: Preview)
    ensures p.tasks == [] && p.html == "" && p.error == None && p.commits == []
  {
    Preview([], "", None, [])
  }

  /**
   What can happen to the conversion state: an effect run starts a task, a
   run's cancel closure is invoked for task `id`, or task `id`'s processing
   settles with `processed`.
   */
  datatype Event = Start(text: string) | Cancel(id: nat) | Finish(id: nat, processed: Processed)

  /** Task `id` exists and its `markHtmlify` call has not settled yet. */
  predicate Pending(p: Preview, id: nat)
  {
    id < |p.tasks| && !p.tasks[id].settled
  }

  /** A run of the effect: appends a fresh, uncancelled task for `text`. */
  function StartTask(p: Preview, text: string): (r: Preview)
    ensures |r.tasks| == |p.tasks| + 1
    ensures r.tasks[|p.tasks|] == Task(text, false, false)
    ensures forall i :: 0 <= i < |p.tasks| ==> r.tasks[i] == p.tasks[i]
    ensures r.html == p.html && r.error == p.error && r.commits == p.commits
  {
    p.(tasks := p.tasks + [Task(text, false, false)])
  }

  /** Invoking task `id`'s cancel closure sets its flag and nothing else. */
  function CancelTask(p: Preview, id: nat): (r: Preview)
    ensures |r.tasks| == |p.tasks|
    ensures id < |p.tasks| ==> r.tasks[id] == p.tasks[id].(cancelled := true)
    ensures forall i :: 0 <= i < |p.tasks| && i != id ==> r.tasks[i] == p.tasks[i]
    ensures r.html == p.html && r.error == p.error && r.commits == p.commits
  {
    if id < |p.tasks| then p.(tasks := p.tasks[id := p.tasks[id].(cancelled := true)]) else p
  }

  /**
   Task `id`'s `markHtmlify` call settles. A successful, uncancelled task
   sets `html` and clears `error`; a failed, uncancelled one sets `error` and
   keeps the last good `html`; a cancelled one changes neither. A task that
   does not exist or has already settled is ignored.
   */
  function FinishTask(p: Preview, id: nat, processed: Processed): (r: Preview)
    ensures !Pending(p, id) ==> r == p
    ensures Pending(p, id) ==> r.tasks == p.tasks[id := p.tasks[id].(settled := true)]
    ensures Pending(p, id) && !p.tasks[id].cancelled && processed.Processed? ==>
              r.html == processed.output && r.error == None && r.commits == p.commits + [id]
    ensures Pending(p, id) && !p.tasks[id].cancelled && processed.ProcessFailed? ==>
              r.html == p.html && r.error == Some(processed.error) && r.commits == p.commits
    ensures Pending(p, id) && p.tasks[id].cancelled ==>
              r.html == p.html && r.error == p.error && r.commits == p.commits
  {
    if !Pending(p, id) then p
    else
      var t := p.tasks[id];
      var settled := p.(tasks := p.tasks[id := t.(settled := true)]);
      match MarkHtmlify(processed, t.cancelled)
      case Resolved(v) =>
        if !t.cancelled && v.Some? then settled.(html := v.value, error := None, commits := p.commits + [id])
        else settled
      case Rejected(e) =>
        if !t.cancelled then settled.(error := Some(e)) else settled
  }

  function Step(p: Preview, e: Event): Preview
  {
    match e
    case Start(text) => StartTask(p, text)
    case Cancel(id) => CancelTask(p, id)
    case Finish(id, processed) => FinishTask(p, id, processed)
  }

  function Run(p: Preview, events: seq<Event>): Preview
    decreases |events|
  {
    if events == [] then p else Run(Step(p, events[0]), events[1..])
  }

  /** A cancelled task leaves the visible HTML and error alone, whatever its outcome. */
  lemma CancelledTaskIsInvisible(p: Preview, id: nat, processed: Processed)
    requires id < |p.tasks| && p.tasks[id].cancelled
    ensures FinishTask(p, id, processed).html == p.html
    ensures FinishTask(p, id, processed).error == p.error
  {
  }

  /** Every task is cancelled. */
  predicate AllCancelled(p: Preview)
  {
    forall i :: 0 <= i < |p.tasks| ==> p.tasks[i].cancelled
  }

  /** At most the newest task is still uncancelled. */
  predicate OnlyNewestLive(p: Preview)
  {
    forall i :: 0 <= i < |p.tasks| - 1 ==> p.tasks[i].cancelled
  }

  /** The committing tasks appear in non-decreasing order. */
  predicate Sorted(s: seq<nat>)
  {
    forall i, j :: 0 <= i < j < |s| ==> s[i] <= s[j]
  }

  /** Commits are in order and each names a task that has started. */
  predicate CommitsInOrder(p: Preview)
  {
    Sorted(p.commits) && forall k :: 0 <= k < |p.commits| ==> p.commits[k] < |p.tasks|
  }

  /**
   The discipline that makes last-writer-wins hold: every `Start` happens
   when all earlier tasks have been cancelled.
   */
  predicate Disciplined(p: Preview, events: seq<Event>)
    decreases |events|
  {
    events == [] ||
    ((events[0].Start? ==> AllCancelled(p)) && Disciplined(Step(p, events[0]), events[1..]))
  }

  /**
   One disciplined step keeps at most the newest task live and the commits in
   order; only the newest task can commit.
   */
  lemma StepKeepsOrder(p: Preview, e: Event)
    requires OnlyNewestLive(p) && CommitsInOrder(p)
    requires e.Start? ==> AllCancelled(p)
    ensures OnlyNewestLive(Step(p, e)) && CommitsInOrder(Step(p, e))
    ensures |Step(p, e).commits| > |p.commits| ==>
              Step(p, e).commits == p.commits + [|p.tasks| - 1]
  {
  }

  /**
   Last-writer-wins under the cancellation discipline: starting from ordered
   commits with at most the newest task live, a trace in which every `Start`
   follows the cancellation of all earlier tasks commits tasks in
   non-decreasing order and never drops an earlier commit.
   */
  lemma {:induction false} DisciplinedRunCommitsInOrder(p: Preview, events: seq<Event>)
    requires OnlyNewestLive(p) && CommitsInOrder(p)
    requires Disciplined(p, events)
    ensures OnlyNewestLive(Run(p, events)) && CommitsInOrder(Run(p, events))
    ensures p.commits <= Run(p, events).commits
    decreases |events|
  {
    if events != [] {
      StepKeepsOrder(p, events[0]);
      var p' := Step(p, events[0]);
      assert p.commits <= p'.commits;
      DisciplinedRunCommitsInOrder(p', events[1..]);
    }
  }

  /**
   Without the discipline the order is lost: an older task that settles after
   a newer one overwrites the newer result.
   */
  lemma UndisciplinedRunRegresses()
    ensures var p := Run(Empty(), [Start("a"), Start("b"), Finish(1, Processed("B")), Finish(0, Processed("A"))]);
            p.html == "A" && p.commits == [1, 0] && !Sorted(p.commits)
  {
    var p := Run(Empty(), [Start("a"), Start("b"), Finish(1, Processed("B")), Finish(0, Processed("A"))]);
    assert p.commits == [1, 0];
    assert p.commits[0] > p.commits[1];
  }
}

=== FILE: remark.dfy ===
/**
 The conversion library wrapper of `src/utils/remark.ts`: the fixed plugin
 chain of the unified processor, and `markHtmlify`, which runs the processor
 to completion and only then consults the caller's cancellation flag. The
 plugins themselves are opaque: `processor.process` is represented by its
 outcome, a string or a failure.
 */
module Remark {
  import opened Base

  /** One `.use(...)` of the processor; `RemarkRehype` carries its option. */
  datatype Stage =
    | RemarkParse
    | RemarkGfm
    | RemarkMath
    | RemarkRehype(allowDangerousHtml: bool)
    | RehypeKatex
    | RehypeRaw
    | RehypeSanitize
    | RehypeFormat
    | RehypeStarryNight
    | RehypeStringify

  /** The processor's plugin chain, in the order it is built. */
  const Processor: seq<Stage> := [
    RemarkParse,
    RemarkGfm,
    RemarkMath,
    RemarkRehype(true),
    RehypeKatex,
    RehypeRaw,
    RehypeSanitize,
    RehypeFormat,
    RehypeStarryNight,
    RehypeStringify
  ]

  /** Some use of `a` comes before some use of `b` in `stages`. */
  predicate RunsBefore(stages: seq<Stage>, a: Stage, b: Stage)
  {
    exists i, j :: 0 <= i < j < |stages| && stages[i] == a && stages[j] == b
  }

  /** No plugin is used twice. */
  predicate Distinct(stages: seq<Stage>)
  {
    forall i, j :: 0 <= i < j < |stages| ==> stages[i] != stages[j]
  }

  /**
   No plugin is used twice, so `RunsBefore` below speaks of the one use of
   each; parsing comes first and serialisation last.
   */
  lemma ProcessorShape()
    ensures Processor[0] == RemarkParse && Processor[|Processor| - 1] == RehypeStringify
    ensures Distinct(Processor)
  {
  }

  /**
   The chain's safety-relevant order: the markdown-to-HTML conversion keeps
   raw HTML (`allowDangerousHtml`, and it is never used without it) and raw
   HTML is reparsed before the sanitizer runs; sanitising happens before
   formatting, highlighting and serialisation.
   */
  lemma ProcessorOrder()
    ensures RemarkRehype(false) !in Processor
    ensures RunsBefore(Processor, RemarkRehype(true), RehypeRaw)
    ensures RunsBefore(Processor, RehypeRaw, RehypeSanitize)
    ensures RunsBefore(Processor, RehypeSanitize, RehypeFormat)
    ensures RunsBefore(Processor, RehypeSanitize, RehypeStarryNight)
    ensures RunsBefore(Processor, RehypeSanitize, RehypeStringify)
  {
    assert Processor[3] == RemarkRehype(true) && Processor[5] == RehypeRaw;
    assert Processor[6] == RehypeSanitize && Processor[7] == RehypeFormat;
    assert Processor[8] == RehypeStarryNight && Processor[9] == RehypeStringify;
  }

  /** The outcome of the opaque `processor.process(markdown)`. */
  datatype Processed = Processed(output: string) | ProcessFailed(error: Error)

  /** How an async call settles: resolved with a value or `undefined`, or rejected. */
  datatype Completion = Resolved(value: Option<string>) | Rejected(error: Error)

  /**
   `markHtmlify`: `processed` is the outcome of the processor, which always
   runs to completion; `cancelledAfter` is the value `isCancelled()` returns
   when it is consulted, once, after processing.
   */
  function MarkHtmlify(processed: Processed, cancelledAfter: bool): (r: Completion)
    ensures r == Resolved(None) <==> processed.Processed? && cancelledAfter
    ensures processed.Processed? && !cancelledAfter ==> r == Resolved(Some(processed.output))
    ensures processed.ProcessFailed? ==> r == Rejected(processed.error)
  {
    match processed
    case ProcessFailed(e) => Rejected(e)
    case Processed(out) => if cancelledAfter then Resolved(None) else Resolved(Some(out))
  }

  /**
   Cancellation is advisory: whether the flag is set changes nothing about a
   processor failure, which escapes uncaught either way, and a cancelled call
   never yields output.
   */
  lemma CancellationIsAdvisory(processed: Processed)
    ensures processed.ProcessFailed? ==> MarkHtmlify(processed, true) == MarkHtmlify(processed, false)
    ensures MarkHtmlify(processed, true).Resolved? ==> MarkHtmlify(processed, true).value.None?
  {
  }
}

=== FILE: server_entry.dfy ===
/**
 The server-side `loadTheme` of `src/entry-server.tsx`, which fills the
 `data-theme` attribute of the server-rendered document from the request's
 "theme" cookie.
 */
module ServerEntry {
  import opened Base
  import opened ThemeConfig
  import ThemeSignal
  import ThemeToggle

  /**
   A truthy (present, non-empty) cookie is returned unchanged; otherwise the
   light token. There is no normalisation to the two theme tokens.
   */
  function LoadTheme(cookie: Option<string>): (r: string)
    ensures r != ""
    ensures cookie.Some? && cookie.value != "" ==> r == cookie.value
    ensures cookie.None? || cookie.value == "" ==> r == LightTheme
  {
    match cookie
    case Some(c) => if c != "" then c else LightTheme
    case None => LightTheme
  }

  /** The `data-theme` attribute the server renders for a request's cookie jar. */
  function RenderedDataTheme(cookies: ThemeSignal.CookieJar): (r: string)
    ensures ThemeSignal.ThemeKey !in cookies ==> r == LightTheme
    ensures ThemeSignal.ThemeKey in cookies && cookies[ThemeSignal.ThemeKey] != "" ==> r == cookies[ThemeSignal.ThemeKey]
    ensures ThemeSignal.ThemeKey in cookies && cookies[ThemeSignal.ThemeKey] == "" ==> r == LightTheme
  {
    LoadTheme(ThemeSignal.LoadTheme(cookies))
  }

  /**
   The client code that runs on every page, the toggle's `onMount`, applies
   exactly the value the server rendered, for every cookie jar: both fall
   back to light on a missing or empty cookie and keep any other value.
   */
  lemma ServerMatchesToggleMount(cookies: ThemeSignal.CookieJar)
    ensures RenderedDataTheme(cookies) == ThemeToggle.StoredOrLight(cookies)
    ensures ThemeToggle.OnMount(ThemeToggle.Create(ThemeSignal.Initial(cookies))).page.dataTheme == Some(RenderedDataTheme(cookies))
  {
  }

  /**
   `initTheme` has no caller among the modelled files; were it called,
   server and client would agree for both theme tokens and for a missing cookie,
   but a cookie holding any other value reaches the server-rendered attribute
   as it is while the client's `initTheme` normalises it to light.
   */
  lemma ServerAndClientDiffer(cookies: ThemeSignal.CookieJar)
    ensures ThemeSignal.LoadTheme(cookies) in {None, Some(LightTheme), Some(DarkTheme)} ==>
              RenderedDataTheme(cookies) == ThemeSignal.InitTheme(ThemeSignal.Initial(cookies)).theme
    ensures ThemeSignal.LoadTheme(cookies).Some? && ThemeSignal.LoadTheme(cookies).value !in {"", LightTheme, DarkTheme} ==>
              RenderedDataTheme(cookies) != ThemeSignal.InitTheme(ThemeSignal.Initial(cookies)).theme
  {
  }
}

=== FILE: theme_config.dfy ===
/**
 The two presentation-mode tokens. They are read from `~/theme-config`, a file
 that is not part of this model, so their real values are unknown; of the six
 daisyUI themes the repository enables, "light" and "dark" are the ones chosen
 here. Every proof depends only on the two tokens being distinct and non-empty.
 */
module ThemeConfig {

  const LightTheme: string := "light"
  const DarkTheme: string := "dark"

  /** The token a boolean "dark mode" flag stands for. */
  function TokenFor(dark: bool): (t: string)
    ensures t == DarkTheme <==> dark
    ensures t == LightTheme <==> !dark
    ensures t != ""
  {
    if dark then DarkTheme else LightTheme
  }
}

=== FILE: theme_signal.dfy ===
/**
 The client-side theme state of `src/signals/theme.ts`: the `theme` signal,
 the `data-theme` attribute of the document element and the cookie jar the
 preference is persisted in. The DOM and the cookie library become plain
 fields of one immutable record: `initTheme` and `updateTheme` become pure
 steps on that record, and `saveTheme`/`loadTheme` pure functions on its
 cookie jar.
 */
module ThemeSignal {
  import opened Base
  import opened ThemeConfig

  /** The cookie holding the persisted preference. */
  const ThemeKey: string := "theme"

  /** A cookie jar: cookie name to cookie value. */
  type CookieJar = map<string, string>

  /**
   The observable theme state of one page.
   - `theme`: the current value of the `theme` signal;
   - `themeSets`: how many times the signal's setter has been called, so that
     a skipped write can be told apart from a write of an equal value;
   - `dataTheme`: the `data-theme` attribute of the document element
     (`None` while it has never been set on the client);
   - `cookies`: the browser's cookie jar.
   */
  datatype ThemeState = ThemeState(
    theme: string,
    themeSets: nat,
    dataTheme: Option<string>,
    cookies: CookieJar)

  /** The state before any theme function has run: the signal starts light. */
  function Initial(cookies: CookieJar): (s: ThemeState)
    ensures s.theme == LightTheme
    ensures s.themeSets == 0 && s.dataTheme == None && s.cookies == cookies
  {
    ThemeState(LightTheme, 0, None, cookies)
  }

  /** `loadTheme`: the value of the "theme" cookie, or `undefined`. */
  function LoadTheme(cookies: CookieJar): (r: Option<string>)
    ensures r.Some? <==> ThemeKey in cookies
    ensures r.Some? ==> r.value == cookies[ThemeKey]
  {
    if ThemeKey in cookies then Some(cookies[ThemeKey]) else None
  }

  /** `saveTheme`: writes the "theme" cookie and no other. */
  function SaveTheme(cookies: CookieJar, t: string): (r: CookieJar)
    ensures ThemeKey in r && r[ThemeKey] == t
    ensures r.Keys == cookies.Keys + {ThemeKey}
    ensures forall k :: k in cookies && k != ThemeKey ==> k in r && r[k] == cookies[k]
  {
    cookies[ThemeKey := t]
  }

  /** Loading after saving yields the saved token. */
  lemma SaveThenLoad(cookies: CookieJar, t: string)
    ensures LoadTheme(SaveTheme(cookies, t)) == Some(t)
  {
  }

  /** Saving what was just loaded leaves the jar as it was. */
  lemma LoadThenSave(cookies: CookieJar)
    requires LoadTheme(cookies).Some?
    ensures SaveTheme(cookies, LoadTheme(cookies).value) == cookies
  {
  }

  /** The signal's setter, counting the call. */
  function SetTheme(s: ThemeState, t: string): (r: ThemeState)
    ensures r.theme == t && r.themeSets == s.themeSets + 1
    ensures r.dataTheme == s.dataTheme && r.cookies == s.cookies
  {
    s.(theme := t, themeSets := s.themeSets + 1)
  }

  /**
   `initTheme`: normalises the stored cookie to one of the two tokens (dark
   only for an exact match) and mirrors it into `data-theme`.
   */
  function InitTheme(s: ThemeState): (r: ThemeState)
    ensures r.theme == DarkTheme <==> LoadTheme(s.cookies) == Some(DarkTheme)
    ensures r.theme == LightTheme <==> LoadTheme(s.cookies) != Some(DarkTheme)
    ensures r.dataTheme == Some(r.theme)
    ensures r.cookies == s.cookies
  {
    var stored := LoadTheme(s.cookies);
    var initial := if stored == Some(DarkTheme) then DarkTheme else LightTheme;
    SetTheme(s, initial).(dataTheme := Some(initial))
  }

  /**
   `updateTheme`: sets the signal only when it differs from `t`, and always
   writes `t` into `data-theme`. The cookie is not touched.
   */
  function UpdateTheme(s: ThemeState, t: string): (r: ThemeState)
    ensures r.theme == t && r.dataTheme == Some(t)
    ensures r.cookies == s.cookies
    ensures s.theme == t ==> r.themeSets == s.themeSets
    ensures s.theme != t ==> r.themeSets == s.themeSets + 1
  {
    var s' := if s.theme != t then SetTheme(s, t) else s;
    s'.(dataTheme := Some(t))
  }

  /** A second `updateTheme` with the same token changes nothing at all. */
  lemma UpdateThemeIdempotent(s: ThemeState, t: string)
    ensures UpdateTheme(UpdateTheme(s, t), t) == UpdateTheme(s, t)
  {
  }

  /** The signal and the attribute agree. */
  predicate Mirrored(s: ThemeState)
  {
    s.dataTheme == Some(s.theme)
  }

  /** Both `initTheme` and `updateTheme` leave the signal mirrored in `data-theme`. */
  lemma ThemeFunctionsMirror(s: ThemeState, t: string)
    ensures Mirrored(InitTheme(s)) && Mirrored(UpdateTheme(s, t))
  {
  }
}

=== FILE: theme_toggle.dfy ===
/**
 The `ThemeToggle` component of `src/components/ThemeToggle.tsx`: a checkbox
 whose `toggle` flag stands for dark mode. Mounting reads the persisted
 preference; each change of the checkbox flips the flag and pushes the
 matching token into the signal, the cookie and `data-theme`.
 */
module ThemeToggle {
  import opened Base
  import opened ThemeConfig
  import opened ThemeSignal

  /** The component's flag next to the page's theme state. */
  datatype ToggleState = ToggleState(page: ThemeState, toggle: bool)

  /** The component as created: the flag starts off. */
  function Create(page: ThemeState): (r: ToggleState)
    ensures !r.toggle && r.page == page
  {
    ToggleState(page, false)
  }

  /**
   The stored preference with JavaScript's `||` fallback: a missing cookie
   and an empty one (both falsy) become the light token; any other value,
   including one that is not a theme token, is kept as it is.
   */
  function StoredOrLight(cookies: CookieJar): (t: string)
    ensures t != ""
    ensures LoadTheme(cookies) == None ==> t == LightTheme
    ensures LoadTheme(cookies) == Some("") ==> t == LightTheme
    ensures LoadTheme(cookies).Some? && LoadTheme(cookies).value != "" ==> t == LoadTheme(cookies).value
  {
    match LoadTheme(cookies)
    case None => LightTheme
    case Some(v) => if v == "" then LightTheme else v
  }

  /** `onMount`: the flag becomes "stored is dark" and the stored value goes through `updateTheme`. */
  function OnMount(s: ToggleState): (r: ToggleState)
    ensures r.toggle <==> LoadTheme(s.page.cookies) == Some(DarkTheme)
    ensures r.page.theme == StoredOrLight(s.page.cookies)
    ensures Mirrored(r.page)
    ensures r.page.cookies == s.page.cookies
  {
    var stored := StoredOrLight(s.page.cookies);
    ToggleState(UpdateTheme(s.page, stored), stored == DarkTheme)
  }

  /**
   `toggleTheme`: negates the flag, then sets the signal, saves the cookie
   and updates `data-theme` with the token of the new flag.
   */
  function ToggleTheme(s: ToggleState): (r: ToggleState)
    ensures r.toggle == !s.toggle
    ensures r.page.theme == TokenFor(r.toggle)
    ensures LoadTheme(r.page.cookies) == Some(TokenFor(r.toggle))
    ensures r.page.dataTheme == Some(TokenFor(r.toggle))
    ensures r.page.themeSets == s.page.themeSets + 1
    ensures forall k :: k in s.page.cookies && k != ThemeKey ==> k in r.page.cookies && r.page.cookies[k] == s.page.cookies[k]
  {
    var newToggle := !s.toggle;
    var newTheme := TokenFor(newToggle);
    var page := SetTheme(s.page, newTheme);
    var page := page.(cookies := SaveTheme(page.cookies, newTheme));
    ToggleState(UpdateTheme(page, newTheme), newToggle)
  }

  /** The flag is on exactly when the signal holds the dark token. */
  predicate Consistent(s: ToggleState)
  {
    s.toggle <==> s.page.theme == DarkTheme
  }

  /** Every toggle re-establishes the flag/signal agreement, whatever held before. */
  lemma ToggleIsConsistent(s: ToggleState)
    ensures Consistent(ToggleTheme(s))
  {
  }

  /** So does mounting, even for a stored value that is not a theme token. */
  lemma MountIsConsistent(s: ToggleState)
    ensures Consistent(OnMount(s))
  {
  }

  /**
   Toggling twice from a state where the signal holds the flag's token and is
   mirrored in `data-theme` restores the flag, the signal and the attribute,
   and leaves that same token in the cookie.
   */
  lemma ToggleTwiceRestores(s: ToggleState)
    requires s.page.theme == TokenFor(s.toggle)
    requires s.page.dataTheme == Some(s.page.theme)
    ensures ToggleTheme(ToggleTheme(s)).toggle == s.toggle
    ensures ToggleTheme(ToggleTheme(s)).page.theme == s.page.theme
    ensures ToggleTheme(ToggleTheme(s)).page.dataTheme == s.page.dataTheme
    ensures LoadTheme(ToggleTheme(ToggleTheme(s)).page.cookies) == Some(s.page.theme)
  {
  }

  /**
   A stored value that is neither theme token nor empty is shown as it is
   after mounting, but one round of two toggles replaces it by the light
   token: the round trip above needs its precondition.
   */
  lemma ForeignTokenNotRestored(v: string)
    requires v !in {"", LightTheme, DarkTheme}
    ensures var s := OnMount(Create(Initial(map[ThemeKey := v])));
            s.page.theme == v && ToggleTheme(ToggleTheme(s)).page.theme == LightTheme
  {
  }

  /** The user's interactions after creation. */
  datatype Event = Mount | Toggle

  function Apply(s: ToggleState, e: Event): ToggleState
  {
    match e
    case Mount => OnMount(s)
    case Toggle => ToggleTheme(s)
  }

  function Run(s: ToggleState, events: seq<Event>): ToggleState
    decreases |events|
  {
    if events == [] then s else Run(Apply(s, events[0]), events[1..])
  }

  /**
   After any non-empty sequence of mounts and toggles, the flag agrees with the
   signal and the signal is mirrored in `data-theme`.
   */
  lemma {:induction false} RunStaysConsistent(s: ToggleState, events: seq<Event>)
    requires events != []
    ensures Consistent(Run(s, events))
    ensures Mirrored(Run(s, events).page)
    decreases |events|
  {
    var s' := Apply(s, events[0]);
    if |events| == 1 {
      assert Run(s', events[1..]) == s';
    } else {
      RunStaysConsistent(s', events[1..]);
    }
  }

  /**
   After any non-empty sequence of mounts and toggles, the cookie holds the
   dark token exactly when the signal does, so a later read of the cookie
   agrees with the signal on dark mode.
   */
  lemma {:induction false} RunCookieMatchesTheme(s: ToggleState, events: seq<Event>)
    requires events != []
    ensures LoadTheme(Run(s, events).page.cookies) == Some(DarkTheme) <==> Run(s, events).page.theme == DarkTheme
    decreases |events|
  {
    var s' := Apply(s, events[0]);
    if |events| == 1 {
      assert Run(s', events[1..]) == s';
    } else {
      RunCookieMatchesTheme(s', events[1..]);
    }
  }
}
